=== FILE: README.md ===
# Pagination helpers, modelled in Dafny

This project models the pagination helpers of a NestJS/Mongoose backend template
(`src/utils/index.ts`):

- `getEndPoint` takes a request URL and returns the third `/`-separated segment
  of the part before the first `?`.
- `getPaginatedData` counts the documents a filter matches. It returns the page
  at offset `(page - 1) * limit`, at most `limit` documents, together with a
  navigation record: `currentPage`, `totalPages`, `hasNextPage`, `hasPrevPage`,
  `totalItems`, and the `nextPage`/`prevPage` links
  `${BASE_URL}/api/${endPoint}?page=${n}&limit=${limit}`.
- `getAggregatedPaginatedData` does the same over an aggregation pipeline. It
  returns `{ result: [], pagination: {} }` when the pipeline yields nothing, and
  it uses an empty path segment when `endPoint` is missing.

The data store is abstract. The documents a query matches are an already
filtered and already ordered `seq<T>`, so the count is its length and
`skip(off).limit(limit)` (or `$skip`/`$limit`) is the slice from `off`. The
process-wide `BASE_URL` is the explicit parameter `base`.

Modules:

- `Wrappers`: `Option`, used for `undefined`/`null`.
- `Strings`: JavaScript's one-character `split`, its inverse `Join`, and the
  decimal text of a number with its parser.
- `Paging`: ceiling division, the skip offset, the page slice, and how pages
  tile the sequence.
- `Utils`: `GetEndPoint`, the navigation links, the `Pagination` record and the
  two paginators.

Both paginators require `page >= 1` and `limit >= 1`. A caller may leave either
out: `GetPaginatedDataWithDefaults` and `GetAggregatedPaginatedDataWithDefaults`
take them as options and apply the source's defaults of page 1 and limit 10. The source does not check
either value. With `limit = 0`, `Math.ceil(count / 0)` is not a page count. With
`page = 0`, the skip is negative. Neither case has a meaning to model.

## Model

| member | source | states |
|---|---|---|
| `Strings.Split` | src/utils/index.ts:25 | `split` on one character always yields at least one piece; no piece contains the separator; every character of a piece comes from the input |
| `Strings.JoinSplit` | src/utils/index.ts:25 | joining the pieces of a split with the separator gives back the original string |
| `Strings.SplitJoin` | src/utils/index.ts:25 | splitting a join of separator-free pieces gives back exactly those pieces |
| `Strings.SplitCount` | src/utils/index.ts:25 | a split yields one more piece than the separator occurs |
| `Strings.NatToString` | src/utils/index.ts:68-70 | the interpolated page and limit are a non-empty run of digits, with a leading `0` only for zero, and contain no `?`, `&` or `/` |
| `Strings.ParseNatToString` | src/utils/index.ts:68-70 | reading back the decimal text of `n` gives `n` |
| `Strings.NatToStringInjective` | src/utils/index.ts:68-70 | different numbers produce different decimal texts |
| `Paging.CeilDiv` | src/utils/index.ts:46 | `totalPages` is at least large enough to hold `count` items at `limit` per page; one page fewer would not be; it is zero exactly when `count` is zero |
| `Paging.CeilDivUnique` | src/utils/index.ts:46 | any page count meeting both bounds equals `Math.ceil(count / limit)` |
| `Paging.Offset` | src/utils/index.ts:53 | the skip `(page - 1) * limit`; it has no contract of its own, and `PageSlice`'s ensures and `OffsetStep` (page `k` ends where page `k + 1` starts) pin it down |
| `Paging.PageSlice` | src/utils/index.ts:50-55 | the page has length `min(limit, max(0, count - (page-1)*limit))`; its i-th document is document `(page-1)*limit + i` |
| `Paging.PageNonEmptyIff` | src/utils/index.ts:46-54 | a page holds documents exactly when `page <= totalPages`; a page past the end is empty and raises no error |
| `Paging.PagesArePrefix` | src/utils/index.ts:53-54 | the first `k` pages placed end to end are the first `min(k*limit, count)` documents |
| `Paging.PagesCoverAll` | src/utils/index.ts:53-54 | pages `1..totalPages` placed end to end reproduce the whole ordered sequence |
| `Paging.PageOfPosition` | src/utils/index.ts:53-54 | document `pos` is returned by page `p` exactly when `p == pos / limit + 1`, so each document is on exactly one page |
| `Paging.OnPageIsSlice` | src/utils/index.ts:53-54 | a position is on a page exactly when it lies in the span that page's slice was taken from, and the slice holds the document stored there |
| `Paging.PagesDisjoint` | src/utils/index.ts:53-54 | no stored position is returned by two different pages |
| `Utils.PathPart` | src/utils/index.ts:25 | `url.split('?')[0]` is the longest prefix of the URL without a `?` |
| `Utils.GetEndPoint` | src/utils/index.ts:24-26 | any endpoint found contains neither `/` nor `?` |
| `Utils.EndPointOf` | src/utils/index.ts:24-26 | for `/`- and `?`-free `a`, `b` and `e`, the endpoint of `a/b/e` followed by nothing, `/...` or `?...` is `e` |
| `Utils.EndPointOfRequestPath` | src/utils/index.ts:24-26 | for `e` free of `/` and `?`, the endpoint of `/api/e?query` is `e` for any query |
| `Utils.EndPointShape` | src/utils/index.ts:24-26 | conversely, a URL with an endpoint `e` has the form `a/b/e` followed by nothing, `/...` or `?...`, with `a` and `b` free of `/` and `?` |
| `Utils.EndPointAbsent` | src/utils/index.ts:24-26 | the endpoint is `undefined` exactly when the part before `?` has fewer than two `/`, that is, fewer than three segments |
| `Utils.PageQueryRoundTrip` | src/utils/index.ts:68-70 | the query `page=N&limit=L` of a link reads back as `(N, L)` |
| `Utils.PageUrl` | src/utils/index.ts:67-77 | builds the link `${BASE_URL}/api/${endPoint}?page=${page}&limit=${limit}`; it has no contract of its own, and `PageUrlRoundTrip` and `PageUrlInjective` pin it down |
| `Utils.PageUrlRoundTrip` | src/utils/index.ts:67-77 | for a base and endpoint without `?`, a link's path is `base + "/api/" + endPoint`; its query reads back as the page and limit it was built from |
| `Utils.PageUrlInjective` | src/utils/index.ts:67-77 | links to different pages are different strings, for every base and endpoint |
| `Utils.EndPointOfPageUrl` | src/utils/index.ts:24-26 | `getEndPoint` of a link's request path returns the endpoint the link was built for |
| `Utils.ValidMetaUnique` | src/utils/index.ts:57-65 | the navigation invariants (ceiling page count, the flags, a link exactly when its flag is set, link contents) determine the record completely |
| `Utils.Metadata` | src/utils/index.ts:46-77 | the record built from a count meets the navigation invariants |
| `Utils.GetPaginatedData` | src/utils/index.ts:28-80 | `totalItems` is the count; `totalPages` is its ceiling over `limit`; `hasNextPage` iff `page < totalPages`; `hasPrevPage` iff `page > 1`; `nextPage`/`prevPage` are present exactly with their flags and link to `page+1`/`page-1` with the same limit; the result is the slice at `(page-1)*limit`, non-empty iff `page <= totalPages` |
| `Utils.GetAggregatedPaginatedData` | src/utils/index.ts:82-135 | with a zero count the result is `[]` with the empty record, and only then is the record empty; otherwise the same invariants as the filter path hold, with a missing endpoint read as the empty segment |
| `Utils.GetPaginatedDataWithDefaults` | src/utils/index.ts:28-31 | with `page` or `limit` left out, the record meets the invariants for page 1 and limit 10; the result is the slice of `min(limit, max(0, count - (page-1)*limit))` documents starting at document `(page-1)*limit`, with a missing page read as 1 and a missing limit as 10; a missing page gives current page 1, no previous page, and the first `limit` documents |
| `Utils.GetAggregatedPaginatedDataWithDefaults` | src/utils/index.ts:82-85 | the same defaults on the aggregation path: the record is `{}` exactly at count 0, with an empty result then; otherwise it meets the invariants for the defaulted page and limit; the result is the same defaulted slice as on the filter path; a missing page gives no previous page and the first `limit` documents |
| `Utils.AggregatedAgreesWithFilter` | src/utils/index.ts:101-122 | for a positive count the aggregation paginator returns exactly what the filter paginator returns for the same documents, page and limit |
| `Utils.EmptyResultAsymmetry` | src/utils/index.ts:99 | with no documents the filter path reports page `page` of 0 pages with no next link, while the aggregation path returns `([], {})` |
| `Utils.AggregatedMissingEndPoint` | src/utils/index.ts:124-132 | a missing endpoint behaves like `""`; the result, counters and flags do not change; the links use the empty path segment |
| `Utils.FollowNextPage` | src/utils/index.ts:67-71 | for `page < totalPages` the record has a next page; the `nextPage` link reads back as `(page+1, limit)`; that page holds documents and its `prevPage` links back to `page` |
| `Utils.FollowPrevPage` | src/utils/index.ts:73-77 | for `1 < page <= totalPages` the record has a previous page; the `prevPage` link reads back as `(page-1, limit)`; that page holds documents and its `nextPage` links forward to `page` |
| `Utils.FirstOfTwoPages` | src/utils/index.ts:28-80 | 20 documents with limit 10 at page 1: 2 pages, a next link to `page=2&limit=10`, no previous link |
| `Utils.LastOfTwoPages` | src/utils/index.ts:28-80 | the same documents at page 2: the second ten documents, no next link, a previous link to `page=1&limit=10` |
| `Utils.PagePastTheEnd` | src/utils/index.ts:28-80 | 5 documents with limit 10 at page 3: an empty result, one page, no next page |

## Left out

- `hashPassword` and `comparePassword` (src/utils/index.ts:4-10): single calls into bcrypt, a foreign library whose behaviour is not visible.
- `generateRandomOTP` (src/utils/index.ts:12-14): depends on `Math.random` and floating-point `Math.floor`.
- `otpExpiry` (src/utils/index.ts:16-22): reads the wall clock through `new Date()` and relies on `Date` minute arithmetic.
- src/auth/auth.controller.ts: NestJS routing and a Passport guard that delegate to `authService.generateToken`; it contains no logic of its own.
- Mongoose query semantics are not modelled: filter matching, `sort` ordering, `populate` joins and the `$count` stage encoding. The store is an already filtered, already ordered sequence. The count is its length, and skip/limit is the slice.
- Data-store failures are not modelled: they propagate unchanged in the source. The asynchronous `await` plumbing is also left out.
- `Number(...)` coercion is not modelled: `page` and `limit` are natural numbers of at least 1. The source does not guard either value, and values below 1 have no meaningful result.
- `Math.ceil(count / limit)` is modelled as the exact integer ceiling. Floating-point rounding for counts beyond 2^53 is left out.
- `page` and `limit` are JavaScript doubles in the source, and the model treats them as exact natural numbers. Past 2^53, `Number(page) + 1`, `Number(page) - 1` and `(page - 1) * limit` are no longer exact (src/utils/index.ts:53, 68-70, 74-76). These values are far beyond any page a store can return.
- Strings.NatToString: it matches the text a template literal writes only for integers below 2^53. From 10^21 on, JavaScript writes exponent notation such as `1e+21`, and the model does not.
- The count and the page come from one snapshot of the store. The source makes two unsynchronised reads: `countDocuments` and then `find` on the filter path (src/utils/index.ts:45, 50-55), and the pipeline run twice on the aggregation path (src/utils/index.ts:96, 112). So `GetPaginatedData`'s non-empty-iff-in-range clause and `AggregatedAgreesWithFilter` hold in the source only if nothing writes to the store between the two reads.
- `Paging.PagesCoverAll`, `Paging.PageOfPosition`, `Paging.PagesDisjoint`, `Utils.FollowNextPage` and `Utils.FollowPrevPage` compare the pages of separate calls over one fixed sequence. In the source each page is a separate query (src/utils/index.ts:50-55) or a separate pipeline run (src/utils/index.ts:112). So these lemmas hold there only under two conditions: the store does not change between page requests, and the sort or pipeline gives a deterministic total order. The default sort `{ createdAt: -1 }` (src/utils/index.ts:33) ties on equal timestamps, and a pipeline without `$sort` has no fixed order. Then pages can repeat or miss documents.
- The `page = 1` and `limit = 10` defaults apply only when the argument is `undefined`; an explicit `null` or a non-numeric value goes through `Number(...)` coercion, which is not modelled (see above).
- The text `"undefined"` is left out. Template interpolation produces it when `BASE_URL` is unset, or when `endPoint` is missing on the filter path. Here `base` is always a string, and the filter path always takes an endpoint.
- Calling a paginator twice with the same arguments on an unchanged store gives the same result. Every operation here is a pure function, so this holds by construction and has no lemma of its own.
- No URL encoding is modelled, matching the source. `ParsePageQuery` is a reference reader for the exact query the links carry, not a general query-string parser.

=== FILE: paging.dfy ===
/**
 * The skip/limit arithmetic shared by both paginators. The store is an
 * already filtered and already ordered sequence of documents: counting is
 * its length, and `skip(off).limit(limit)` is the slice starting at `off`
 * of at most `limit` documents.
 */
module Paging {

  function Min(a: int, b: int): int { if a <= b then a else b }

  function Max(a: int, b: int): int { if a >= b then a else b }

  lemma MulMonotone(a: nat, b: nat, k: nat)
    requires a <= b
    ensures a * k <= b * k
  {
  }

  /** `Math.ceil(count / limit)`: the fewest pages of `limit` documents that
      hold `count` documents. */
  function CeilDiv(count: nat, limit: nat): (pages: nat)
    requires limit >= 1
    ensures pages * limit >= count
    ensures pages == 0 || (pages - 1) * limit < count
    ensures pages == 0 <==> count == 0
  {
    var q := (count + limit - 1) / limit;
    var r := (count + limit - 1) % limit;
    assert q * limit + r == count + limit - 1;
    assert q >= 1 ==> (q - 1) * limit == q * limit - limit;
    q
  }

  /** The two bounds in `CeilDiv`'s contract pin the page count down: no other
      number of pages is both large enough and free of a wholly empty page. */
  lemma CeilDivUnique(count: nat, limit: nat, pages: nat)
    requires limit >= 1
    requires pages * limit >= count
    requires pages == 0 || (pages - 1) * limit < count
    ensures pages == CeilDiv(count, limit)
  {
    var t := CeilDiv(count, limit);
    if pages < t {
      MulMonotone(pages, t - 1, limit);
    } else if pages > t {
      MulMonotone(t, pages - 1, limit);
    }
  }

  /** `(page - 1) * limit`: the number of documents the query skips. */
  function Offset(page: nat, limit: nat): nat
    requires page >= 1
  {
    MulMonotone(0, page - 1, limit);
    (page - 1) * limit
  }

  /** The documents `find().skip((page - 1) * limit).limit(limit)` returns:
      the `limit` documents from the offset on, fewer at the end of the
      sequence, none once the offset is past its end. */
  function PageSlice<T>(docs: seq<T>, page: nat, limit: nat): (slice: seq<T>)
    requires page >= 1 && limit >= 1
    ensures |slice| == Min(limit, Max(0, |docs| - Offset(page, limit)))
    ensures forall i :: 0 <= i < |slice| ==> slice[i] == docs[Offset(page, limit) + i]
  {
    var off := Offset(page, limit);
    if off >= |docs| then [] else docs[off..Min(off + limit, |docs|)]
  }

  /** A page holds documents exactly when it is one of the `CeilDiv` pages;
      a page past the last one is empty, not an error. */
  lemma PageNonEmptyIff<T>(docs: seq<T>, page: nat, limit: nat)
    requires page >= 1 && limit >= 1
    ensures PageSlice(docs, page, limit) != [] <==> page <= CeilDiv(|docs|, limit)
  {
    var t := CeilDiv(|docs|, limit);
    if page <= t {
      MulMonotone(page - 1, t - 1, limit);
    } else {
      MulMonotone(t, page - 1, limit);
    }
  }

  /** The pages `1..k` laid end to end. */
  function Pages<T>(docs: seq<T>, limit: nat, k: nat): seq<T>
    requires limit >= 1
    decreases k
  {
    if k == 0 then [] else Pages(docs, limit, k - 1) + PageSlice(docs, k, limit)
  }

  /** Page `k` ends where page `k + 1` starts. */
  lemma OffsetStep(k: nat, limit: nat)
    requires k >= 1
    ensures Offset(k, limit) + limit == k * limit
  {
  }

  /** The documents before a page's offset, followed by that page, are the
      documents before the next page's offset. */
  lemma PageExtendsPrefix<T>(docs: seq<T>, page: nat, limit: nat)
    requires page >= 1 && limit >= 1
    ensures docs[..Min(Offset(page, limit), |docs|)] + PageSlice(docs, page, limit)
         == docs[..Min(Offset(page, limit) + limit, |docs|)]
  {
    var off := Offset(page, limit);
    if off < |docs| {
      var m := Min(off + limit, |docs|);
      assert docs[..off] + docs[off..m] == docs[..m];
    }
  }

  /** The first `k` pages together are the first `k * limit` documents. */
  lemma {:induction false} PagesArePrefix<T>(docs: seq<T>, limit: nat, k: nat)
    requires limit >= 1
    ensures Pages(docs, limit, k) == docs[..Min(k * limit, |docs|)]
    decreases k
  {
    if k > 0 {
      PagesArePrefix(docs, limit, k - 1);
      OffsetStep(k, limit);
      PageExtendsPrefix(docs, k, limit);
    }
  }

  /** The pages `1..CeilDiv(|docs|, limit)` together reproduce every
      document, in order, with nothing repeated. */
  lemma PagesCoverAll<T>(docs: seq<T>, limit: nat)
    requires limit >= 1
    ensures Pages(docs, limit, CeilDiv(|docs|, limit)) == docs
  {
    PagesArePrefix(docs, limit, CeilDiv(|docs|, limit));
  }

  /** True when the document at `pos` is among those page `page` returns. */
  predicate OnPage(n: nat, pos: nat, page: nat, limit: nat)
    requires page >= 1 && limit >= 1
  {
    Offset(page, limit) <= pos < Offset(page, limit) + Min(limit, Max(0, n - Offset(page, limit)))
  }

  /** `OnPage` speaks of the slice a page returns: a position is on the page
      exactly when it lies in the span the slice was taken from, and the
      slice then holds the document stored there. */
  lemma OnPageIsSlice<T>(docs: seq<T>, pos: nat, page: nat, limit: nat)
    requires page >= 1 && limit >= 1
    ensures OnPage(|docs|, pos, page, limit)
        <==> Offset(page, limit) <= pos < Offset(page, limit) + |PageSlice(docs, page, limit)|
    ensures OnPage(|docs|, pos, page, limit)
        ==> PageSlice(docs, page, limit)[pos - Offset(page, limit)] == docs[pos]
  {
  }

  /** The block of `limit` positions numbered `k` holds `pos` exactly when
      `k` is `pos / limit`. */
  lemma BlockOfPosition(pos: nat, k: nat, limit: nat)
    requires limit >= 1
    ensures k * limit <= pos < k * limit + limit <==> k == pos / limit
  {
    var q := pos / limit;
    assert q * limit + pos % limit == pos;
    if k < q {
      MulMonotone(k + 1, q, limit);
      assert (k + 1) * limit == k * limit + limit;
    } else if k > q {
      MulMonotone(q + 1, k, limit);
      assert (q + 1) * limit == q * limit + limit;
    }
  }

  /** Each of `n` documents is returned by exactly one page: the one numbered
      `pos / limit + 1`. */
  lemma PageOfPosition(n: nat, pos: nat, page: nat, limit: nat)
    requires pos < n
    requires page >= 1 && limit >= 1
    ensures OnPage(n, pos, page, limit) <==> page == pos / limit + 1
  {
    var off := Offset(page, limit);
    assert OnPage(n, pos, page, limit) <==> off <= pos < off + limit;
    BlockOfPosition(pos, page - 1, limit);
  }

  /** Two different pages never return the same stored document. */
  lemma PagesDisjoint(n: nat, pos: nat, p: nat, q: nat, limit: nat)
    requires pos < n
    requires limit >= 1 && p >= 1 && q >= 1 && p != q
    ensures !(OnPage(n, pos, p, limit) && OnPage(n, pos, q, limit))
  {
    PageOfPosition(n, pos, p, limit);
    PageOfPosition(n, pos, q, limit);
  }
}

=== FILE: strings.dfy ===
/**
 * The string operations the pagination helpers rely on: JavaScript's
 * one-character `split`, its inverse `Join`, and the decimal rendering
 * of a natural number that template interpolation performs.
 */
module Strings {
  import opened Wrappers

  /* ---------------------------------------------------------------- split */

  /** `s.split(c)` for a one-character separator `c`: the pieces of `s`
      between occurrences of `c`, in order; there is always at least one. */
  function Split(s: string, c: char): (parts: seq<string>)
    ensures |parts| >= 1
    ensures forall i :: 0 <= i < |parts| ==> c !in parts[i]
    ensures forall i, ch :: 0 <= i < |parts| && ch in parts[i] ==> ch in s
    decreases |s|
  {
    if |s| == 0 then [""]
    else
      var rest := Split(s[1..], c);
      assert forall ch :: ch in s[1..] ==> ch in s;
      if s[0] == c then [""] + rest
      else [[s[0]] + rest[0]] + rest[1..]
  }

  /** `parts.join(c)`: the pieces glued back together with `c` between them. */
  function Join(parts: seq<string>, c: char): string
    requires |parts| >= 1
    decreases |parts|
  {
    if |parts| == 1 then parts[0] else parts[0] + [c] + Join(parts[1..], c)
  }

  /** Joining the pieces of a split gives back the original string. */
  lemma {:induction false} JoinSplit(s: string, c: char)
    ensures Join(Split(s, c), c) == s
    decreases |s|
  {
    if |s| > 0 {
      var rest := Split(s[1..], c);
      JoinSplit(s[1..], c);
      if s[0] == c {
        assert ([""] + rest)[1..] == rest;
      } else if |rest| > 1 {
        var parts := Split(s, c);
        assert parts[1..] == rest[1..];
        assert Join(rest, c) == rest[0] + [c] + Join(rest[1..], c);
        assert s == [s[0]] + s[1..];
      } else {
        assert s == [s[0]] + s[1..];
      }
    }
  }

  /** A string free of the separator splits into itself alone. */
  lemma {:induction false} SplitWithoutSeparator(p: string, c: char)
    requires c !in p
    ensures Split(p, c) == [p]
    decreases |p|
  {
    if |p| > 0 {
      SplitWithoutSeparator(p[1..], c);
      assert p == [p[0]] + p[1..];
    }
  }

  /** Splitting at the first separator: the separator-free head becomes the
      first piece and the tail is split on its own. */
  lemma {:induction false} SplitAtFirst(p: string, c: char, q: string)
    requires c !in p
    ensures Split(p + [c] + q, c) == [p] + Split(q, c)
    decreases |p|
  {
    var s := p + [c] + q;
    if |p| == 0 {
      assert s[1..] == q;
    } else {
      assert s[1..] == p[1..] + [c] + q;
      SplitAtFirst(p[1..], c, q);
      assert p == [p[0]] + p[1..];
    }
  }

  /** A separator-free prefix stays at the head of the first piece. */
  lemma {:induction false} SplitHeadPrefix(p: string, s: string, c: char)
    requires c !in p
    ensures Split(p + s, c)[0] == p + Split(s, c)[0]
    decreases |p|
  {
    if |p| > 0 {
      SplitHeadPrefix(p[1..], s, c);
      assert (p + s)[1..] == p[1..] + s;
      assert p[0] in p;
      assert Split(p + s, c)[0] == [p[0]] + Split(p[1..] + s, c)[0];
      assert p == [p[0]] + p[1..];
      assert [p[0]] + (p[1..] + Split(s, c)[0]) == p + Split(s, c)[0];
    } else {
      assert p + s == s;
    }
  }

  /** Splitting a join of separator-free pieces gives back those pieces. */
  lemma {:induction false} SplitJoin(parts: seq<string>, c: char)
    requires |parts| >= 1
    requires forall i :: 0 <= i < |parts| ==> c !in parts[i]
    ensures Split(Join(parts, c), c) == parts
    decreases |parts|
  {
    if |parts| == 1 {
      SplitWithoutSeparator(parts[0], c);
    } else {
      SplitJoin(parts[1..], c);
      SplitAtFirst(parts[0], c, Join(parts[1..], c));
      assert parts == [parts[0]] + parts[1..];
    }
  }

  /** A split yields one more piece than there are separators. */
  lemma {:induction false} SplitCount(s: string, c: char)
    ensures |Split(s, c)| == multiset(s)[c] + 1
    decreases |s|
  {
    if |s| > 0 {
      SplitCount(s[1..], c);
      assert s == [s[0]] + s[1..];
      assert multiset(s) == multiset([s[0]]) + multiset(s[1..]);
    }
  }

  /* -------------------------------------------------------------- decimal */

  predicate IsDigit(ch: char) {
    '0' <= ch <= '9'
  }

  predicate AllDigits(s: string) {
    forall i :: 0 <= i < |s| ==> IsDigit(s[i])
  }

  function DigitChar(d: nat): (ch: char)
    requires d < 10
    ensures IsDigit(ch)
  {
    ('0' as int + d) as char
  }

  function DigitValue(ch: char): (d: nat)
    requires IsDigit(ch)
    ensures d < 10
  {
    ch as int - '0' as int
  }

  /** The decimal text of `n` as a template literal writes it for an
      integer below 2^53 (larger numbers are not exact doubles, and from
      10^21 on JavaScript switches to exponent notation): at least one
      digit, and no leading zero except for `0` itself. */
  function NatToString(n: nat): (s: string)
    ensures |s| >= 1
    ensures AllDigits(s)
    ensures '?' !in s && '&' !in s && '/' !in s
    ensures s[0] == '0' <==> n == 0
    decreases n
  {
    if n < 10 then [DigitChar(n)]
    else NatToString(n / 10) + [DigitChar(n % 10)]
  }

  /** The value of a string of decimal digits, most significant first. */
  function DigitsValue(s: string): nat
    requires AllDigits(s)
    decreases |s|
  {
    if |s| == 0 then 0
    else DigitsValue(s[..|s| - 1]) * 10 + DigitValue(s[|s| - 1])
  }

  /** Reads a non-empty run of decimal digits as a natural number. */
  function ParseNat(s: string): Option<nat> {
    if |s| >= 1 && AllDigits(s) then Some(DigitsValue(s)) else None
  }

  /** Reading back the decimal text of `n` gives `n`. */
  lemma {:induction false} ParseNatToString(n: nat)
    ensures ParseNat(NatToString(n)) == Some(n)
    decreases n
  {
    var s := NatToString(n);
    if n < 10 {
      assert s == [DigitChar(n)];
      assert s[..|s| - 1] == [];
      assert DigitValue(DigitChar(n)) == n;
      assert DigitsValue(s) == n;
    } else {
      ParseNatToString(n / 10);
      assert s[..|s| - 1] == NatToString(n / 10);
      assert DigitValue(DigitChar(n % 10)) == n % 10;
      assert DigitsValue(s) == n;
    }
  }

  /** Distinct numbers have distinct decimal texts. */
  lemma NatToStringInjective(m: nat, n: nat)
    requires NatToString(m) == NatToString(n)
    ensures m == n
  {
    ParseNatToString(m);
    ParseNatToString(n);
  }
}

=== FILE: utils.dfy ===
/**
 * The pagination helpers of `src/utils/index.ts`: `getEndPoint`, which
 * recovers the endpoint segment of a request URL, and the two paginators,
 * one over a filtered query and one over an aggregation pipeline. The
 * process-wide base URL is the explicit parameter `base`.
 */
module Utils {
  import opened Wrappers
  import opened Strings
  import opened Paging

  /** The navigation record. `Empty` is the `{}` the aggregation paginator
      returns when nothing matches. */
  datatype Pagination =
    | Empty
    | Meta(currentPage: nat, totalPages: nat, hasNextPage: bool, hasPrevPage: bool,
           totalItems: nat, nextPage: Option<string>, prevPage: Option<string>)

  /** What both paginators return: the page of documents and its record. */
  datatype PageResult<T> = PageResult(result: seq<T>, pagination: Pagination)

  /* --------------------------------------------------------- getEndPoint */

  /** `url.split('?')[0]`: the longest prefix of `url` without a `?`. */
  function PathPart(url: string): (path: string)
    ensures '?' !in path
    ensures |path| <= |url| && path == url[..|path|]
    ensures |path| == |url| || url[|path|] == '?'
  {
    var parts := Split(url, '?');
    JoinSplit(url, '?');
    assert |parts| > 1 ==> url == parts[0] + ['?'] + Join(parts[1..], '?');
    parts[0]
  }

  /** `url.split('?')[0].split('/')[2]`, with `undefined` as `None`. */
  function GetEndPoint(url: string): (endPoint: Option<string>)
    ensures endPoint.Some? ==> '/' !in endPoint.value && '?' !in endPoint.value
  {
    var segments := Split(PathPart(url), '/');
    if |segments| > 2 then Some(segments[2]) else None
  }

  /** A `/`-free segment followed by nothing or by a `/` is the first piece
      of the split. */
  lemma FirstSegment(e: string, tail: string)
    requires '/' !in e
    requires tail == [] || tail[0] == '/'
    ensures Split(e + tail, '/')[0] == e
  {
    SplitHeadPrefix(e, tail, '/');
    if tail != [] {
      assert tail == [] + ['/'] + tail[1..];
      SplitAtFirst([], '/', tail[1..]);
    }
    assert Split(tail, '/')[0] == [];
  }

  /** Three `/`-free segments followed by nothing or by a `/`: the third
      piece of the split is the third segment. */
  lemma ThirdSegment(a: string, b: string, e: string, tail: string)
    requires '/' !in a && '/' !in b && '/' !in e
    requires tail == [] || tail[0] == '/'
    ensures |Split(a + ['/'] + (b + ['/'] + (e + tail)), '/')| > 2
    ensures Split(a + ['/'] + (b + ['/'] + (e + tail)), '/')[2] == e
  {
    var third := e + tail;
    var second := b + ['/'] + third;
    SplitAtFirst(a, '/', second);
    SplitAtFirst(b, '/', third);
    FirstSegment(e, tail);
  }

  /** After a `?`-free prefix, the path part goes on up to the first `?`,
      so what follows the prefix in it is empty or starts with a `/` when
      the rest of the URL does. */
  lemma PathPartAfter(pre: string, rest: string) returns (tail: string)
    requires '?' !in pre
    requires rest == [] || rest[0] == '/' || rest[0] == '?'
    ensures tail == [] || tail[0] == '/'
    ensures PathPart(pre + rest) == pre + tail
  {
    SplitHeadPrefix(pre, rest, '?');
    tail := Split(rest, '?')[0];
    if rest != [] && rest[0] == '?' {
      assert rest == [] + ['?'] + rest[1..];
      SplitAtFirst([], '?', rest[1..]);
    }
  }

  /** The endpoint is the third `/`-separated segment of the path: whatever
      lies between the second `/` and the next `/`, `?` or end of URL. */
  lemma EndPointOf(a: string, b: string, e: string, rest: string)
    requires '/' !in a && '?' !in a && '/' !in b && '?' !in b
    requires '/' !in e && '?' !in e
    requires rest == [] || rest[0] == '/' || rest[0] == '?'
    ensures GetEndPoint(a + "/" + b + "/" + e + rest) == Some(e)
  {
    var pre := a + "/" + b + "/" + e;
    assert '?' !in pre;
    var tail := PathPartAfter(pre, rest);
    assert pre + tail == a + ['/'] + (b + ['/'] + (e + tail));
    ThirdSegment(a, b, e, tail);
  }

  /** A request path of the shape the navigation URLs use yields its
      endpoint back. */
  lemma EndPointOfRequestPath(e: string, query: string)
    requires '/' !in e && '?' !in e
    ensures GetEndPoint("/api/" + e + "?" + query) == Some(e)
  {
    EndPointOf("", "api", e, "?" + query);
    assert "" + "/" + "api" + "/" + e + ("?" + query) == "/api/" + e + "?" + query;
  }

  /** A string that splits into three or more pieces is the first two
      pieces, each followed by a `/`, the third piece, and a rest that is
      empty or starts with a `/`. */
  lemma ThreePieces(path: string) returns (rest: string)
    requires |Split(path, '/')| > 2
    ensures rest == [] || rest[0] == '/'
    ensures path == Split(path, '/')[0] + "/" + Split(path, '/')[1] + "/" + Split(path, '/')[2] + rest
  {
    var segs := Split(path, '/');
    JoinSplit(path, '/');
    var tail1 := segs[1..];
    var tail2 := segs[2..];
    assert tail1[1..] == tail2;
    assert Join(segs, '/') == segs[0] + ['/'] + Join(tail1, '/');
    assert Join(tail1, '/') == segs[1] + ['/'] + Join(tail2, '/');
    if |tail2| == 1 {
      rest := [];
      assert Join(tail2, '/') == segs[2];
    } else {
      rest := ['/'] + Join(tail2[1..], '/');
      assert Join(tail2, '/') == segs[2] + rest;
    }
  }

  /** Conversely, a URL with an endpoint has the shape of `EndPointOf`. */
  lemma EndPointShape(url: string) returns (a: string, b: string, rest: string)
    requires GetEndPoint(url).Some?
    ensures '/' !in a && '?' !in a && '/' !in b && '?' !in b
    ensures rest == [] || rest[0] == '/' || rest[0] == '?'
    ensures url == a + "/" + b + "/" + GetEndPoint(url).value + rest
  {
    var path := PathPart(url);
    var segs := Split(path, '/');
    var pathRest := ThreePieces(path);
    a, b := segs[0], segs[1];
    rest := pathRest + url[|path|..];
    assert url == path + url[|path|..];
  }

  /** The endpoint is missing exactly when the path has fewer than two `/`. */
  lemma EndPointAbsent(url: string)
    ensures GetEndPoint(url).None? <==> multiset(PathPart(url))['/'] < 2
  {
    SplitCount(PathPart(url), '/');
  }

  /* ---------------------------------------------------- navigation links */

  /** `${BASE_URL}/api/${endPoint}?page=${page}&limit=${limit}`. */
  function PageUrl(base: string, endPoint: string, page: nat, limit: nat): string {
    base + "/api/" + endPoint + "?page=" + NatToString(page) + "&limit=" + NatToString(limit)
  }

  /** Everything after the first `?`, empty when there is none. */
  function QueryPart(url: string): string {
    var path := PathPart(url);
    if |path| < |url| then url[|path| + 1..] else ""
  }

  /** Reads a query of the form `page=<digits>&limit=<digits>`. */
  function ParsePageQuery(query: string): Option<(nat, nat)> {
    var fields := Split(query, '&');
    if |fields| == 2 && |fields[0]| >= 5 && fields[0][..5] == "page="
       && |fields[1]| >= 6 && fields[1][..6] == "limit="
    then
      match (ParseNat(fields[0][5..]), ParseNat(fields[1][6..]))
      case (Some(p), Some(l)) => Some((p, l))
      case _ => None
    else None
  }

  /** A URL made of a `?`-free path, a `?` and a query splits back into
      that path and that query. */
  lemma PathAndQuery(path: string, query: string)
    requires '?' !in path
    ensures PathPart(path + "?" + query) == path
    ensures QueryPart(path + "?" + query) == query
  {
    assert path + "?" + query == path + ("?" + query);
    SplitHeadPrefix(path, "?" + query, '?');
    assert "?" + query == [] + ['?'] + query;
    SplitAtFirst([], '?', query);
    assert path + [] == path;
  }

  /** The query of a navigation link reads back as its page and limit. */
  lemma PageQueryRoundTrip(page: nat, limit: nat)
    ensures ParsePageQuery("page=" + NatToString(page) + "&limit=" + NatToString(limit))
         == Some((page, limit))
  {
    var pageField := "page=" + NatToString(page);
    var limitField := "limit=" + NatToString(limit);
    assert pageField + "&limit=" + NatToString(limit) == pageField + ['&'] + limitField;
    SplitAtFirst(pageField, '&', limitField);
    SplitWithoutSeparator(limitField, '&');
    assert Split(pageField + ['&'] + limitField, '&') == [pageField, limitField];
    assert pageField[..5] == "page=" && pageField[5..] == NatToString(page);
    assert limitField[..6] == "limit=" && limitField[6..] == NatToString(limit);
    ParseNatToString(page);
    ParseNatToString(limit);
  }

  /** A navigation link's path is the base, `/api/` and the endpoint, and
      its query reads back as the page and limit it was built from. */
  lemma PageUrlRoundTrip(base: string, endPoint: string, page: nat, limit: nat)
    requires '?' !in base && '?' !in endPoint
    ensures PathPart(PageUrl(base, endPoint, page, limit)) == base + "/api/" + endPoint
    ensures ParsePageQuery(QueryPart(PageUrl(base, endPoint, page, limit))) == Some((page, limit))
  {
    var path := base + "/api/" + endPoint;
    var query := "page=" + NatToString(page) + "&limit=" + NatToString(limit);
    assert PageUrl(base, endPoint, page, limit) == path + "?" + query;
    PathAndQuery(path, query);
    PageQueryRoundTrip(page, limit);
  }

  /** Links built for different pages are different. */
  lemma PageUrlInjective(base: string, endPoint: string, p: nat, q: nat, limit: nat)
    requires PageUrl(base, endPoint, p, limit) == PageUrl(base, endPoint, q, limit)
    ensures p == q
  {
    var head := base + "/api/" + endPoint + "?page=";
    var tail := "&limit=" + NatToString(limit);
    var u := PageUrl(base, endPoint, p, limit);
    assert u == head + NatToString(p) + tail;
    assert u == head + NatToString(q) + tail;
    assert |NatToString(p)| == |NatToString(q)|;
    assert NatToString(p) == u[|head|..|u| - |tail|] == NatToString(q);
    NatToStringInjective(p, q);
  }

  /** A request for the path of a link built with an empty base names the
      endpoint the link was built for. */
  lemma EndPointOfPageUrl(endPoint: string, page: nat, limit: nat)
    requires '/' !in endPoint && '?' !in endPoint
    ensures GetEndPoint(PageUrl("", endPoint, page, limit)) == Some(endPoint)
  {
    var query := "page=" + NatToString(page) + "&limit=" + NatToString(limit);
    assert PageUrl("", endPoint, page, limit) == "/api/" + endPoint + "?" + query;
    EndPointOfRequestPath(endPoint, query);
  }

  /* ---------------------------------------------------------- paginators */

  /** The invariants of a navigation record for `count` documents, shown
      `limit` to a page, at page `page`: the fewest pages that hold them,
      the two flags, and a link exactly when its flag is set. */
  predicate ValidMeta(p: Pagination, count: nat, page: nat, limit: nat, base: string, endPoint: string)
    requires page >= 1 && limit >= 1
  {
    && p.Meta?
    && p.currentPage == page
    && p.totalItems == count
    && p.totalPages * limit >= count
    && (p.totalPages == 0 || (p.totalPages - 1) * limit < count)
    && (p.hasNextPage <==> page < p.totalPages)
    && (p.hasPrevPage <==> page > 1)
    && (p.nextPage.Some? <==> p.hasNextPage)
    && (p.prevPage.Some? <==> p.hasPrevPage)
    && (p.nextPage.Some? ==> p.nextPage.value == PageUrl(base, endPoint, page + 1, limit))
    && (p.prevPage.Some? ==> p.prevPage.value == PageUrl(base, endPoint, page - 1, limit))
  }

  /** The invariants leave no freedom: at most one record meets them. */
  lemma ValidMetaUnique(p: Pagination, p': Pagination, count: nat, page: nat, limit: nat,
                        base: string, endPoint: string)
    requires page >= 1 && limit >= 1
    requires ValidMeta(p, count, page, limit, base, endPoint)
    requires ValidMeta(p', count, page, limit, base, endPoint)
    ensures p == p'
  {
    CeilDivUnique(count, limit, p.totalPages);
    CeilDivUnique(count, limit, p'.totalPages);
  }

  /** The record both paginators build once they know the count. */
  function Metadata(count: nat, page: nat, limit: nat, base: string, endPoint: string): (p: Pagination)
    requires page >= 1 && limit >= 1
    ensures ValidMeta(p, count, page, limit, base, endPoint)
  {
    var totalPages := CeilDiv(count, limit);
    var hasNextPage := page < totalPages;
    var hasPrevPage := page > 1;
    Meta(page, totalPages, hasNextPage, hasPrevPage, count,
         if hasNextPage then Some(PageUrl(base, endPoint, page + 1, limit)) else None,
         if hasPrevPage then Some(PageUrl(base, endPoint, page - 1, limit)) else None)
  }

  /** `getPaginatedData` over the filtered, sorted documents `docs`. */
  function GetPaginatedData<T>(docs: seq<T>, page: nat, limit: nat, base: string, endPoint: string)
    : (r: PageResult<T>)
    requires page >= 1 && limit >= 1
    ensures ValidMeta(r.pagination, |docs|, page, limit, base, endPoint)
    ensures |r.result| == Min(limit, Max(0, |docs| - Offset(page, limit)))
    ensures forall i :: 0 <= i < |r.result| ==> r.result[i] == docs[Offset(page, limit) + i]
    ensures r.result != [] <==> page <= r.pagination.totalPages
  {
    PageNonEmptyIff(docs, page, limit);
    PageResult(PageSlice(docs, page, limit), Metadata(|docs|, page, limit, base, endPoint))
  }

  /** `getAggregatedPaginatedData` over the documents `docs` the pipeline
      produces. A missing endpoint, like an empty one, is the empty path
      segment. */
  function GetAggregatedPaginatedData<T>(docs: seq<T>, page: nat, limit: nat, base: string,
                                         endPoint: Option<string>): (r: PageResult<T>)
    requires page >= 1 && limit >= 1
    ensures |docs| == 0 <==> r.pagination.Empty?
    ensures |docs| == 0 ==> r.result == []
    ensures |docs| > 0 ==> ValidMeta(r.pagination, |docs|, page, limit, base, endPoint.GetOr(""))
    ensures |r.result| == Min(limit, Max(0, |docs| - Offset(page, limit)))
    ensures forall i :: 0 <= i < |r.result| ==> r.result[i] == docs[Offset(page, limit) + i]
  {
    if |docs| == 0 then PageResult([], Empty)
    else PageResult(PageSlice(docs, page, limit), Metadata(|docs|, page, limit, base, endPoint.GetOr("")))
  }

  /* ------------------------------------------------------------ defaults */

  /** `getPaginatedData` called with `page` or `limit` left out: the
      parameter defaults make a missing page the first and a missing limit
      ten. */
  function GetPaginatedDataWithDefaults<T>(docs: seq<T>, page: Option<nat>, limit: Option<nat>,
                                           base: string, endPoint: string): (r: PageResult<T>)
    requires page.GetOr(1) >= 1 && limit.GetOr(10) >= 1
    ensures ValidMeta(r.pagination, |docs|, page.GetOr(1), limit.GetOr(10), base, endPoint)
    ensures |r.result| == Min(limit.GetOr(10), Max(0, |docs| - Offset(page.GetOr(1), limit.GetOr(10))))
    ensures forall i :: 0 <= i < |r.result| ==> r.result[i] == docs[Offset(page.GetOr(1), limit.GetOr(10)) + i]
    ensures page.None? ==> && r.pagination.currentPage == 1
                           && !r.pagination.hasPrevPage
                           && r.result == docs[..Min(limit.GetOr(10), |docs|)]
  {
    var r := GetPaginatedData(docs, page.GetOr(1), limit.GetOr(10), base, endPoint);
    assert page.None? ==> r.result == PageSlice(docs, 1, limit.GetOr(10));
    r
  }

  /** `getAggregatedPaginatedData` called with `page` or `limit` left out,
      with the same defaults of page one and ten to a page. */
  function GetAggregatedPaginatedDataWithDefaults<T>(docs: seq<T>, page: Option<nat>,
                                                     limit: Option<nat>, base: string,
                                                     endPoint: Option<string>): (r: PageResult<T>)
    requires page.GetOr(1) >= 1 && limit.GetOr(10) >= 1
    ensures |docs| == 0 <==> r.pagination.Empty?
    ensures |docs| > 0 ==> ValidMeta(r.pagination, |docs|, page.GetOr(1), limit.GetOr(10),
                                     base, endPoint.GetOr(""))
    ensures |docs| == 0 ==> r.result == []
    ensures |r.result| == Min(limit.GetOr(10), Max(0, |docs| - Offset(page.GetOr(1), limit.GetOr(10))))
    ensures forall i :: 0 <= i < |r.result| ==> r.result[i] == docs[Offset(page.GetOr(1), limit.GetOr(10)) + i]
    ensures page.None? ==> && (r.pagination.Meta? ==> !r.pagination.hasPrevPage)
                           && r.result == docs[..Min(limit.GetOr(10), |docs|)]
  {
    var r := GetAggregatedPaginatedData(docs, page.GetOr(1), limit.GetOr(10), base, endPoint);
    assert page.None? && |docs| > 0 ==> r.result == PageSlice(docs, 1, limit.GetOr(10));
    r
  }

  /* ---------------------------------------------------------- properties */

  /** With documents to show, the aggregation paginator returns exactly
      what the filter paginator returns for the same documents. */
  lemma AggregatedAgreesWithFilter<T>(docs: seq<T>, page: nat, limit: nat, base: string,
                                      endPoint: Option<string>)
    requires page >= 1 && limit >= 1 && |docs| > 0
    ensures GetAggregatedPaginatedData(docs, page, limit, base, endPoint)
         == GetPaginatedData(docs, page, limit, base, endPoint.GetOr(""))
  {
    var r := GetAggregatedPaginatedData(docs, page, limit, base, endPoint);
    var s := GetPaginatedData(docs, page, limit, base, endPoint.GetOr(""));
    ValidMetaUnique(r.pagination, s.pagination, |docs|, page, limit, base, endPoint.GetOr(""));
    assert r.result == s.result;
  }

  /** With nothing to show the two paginators differ: the filter paginator
      reports page `page` of zero pages, the aggregation paginator `{}`. */
  lemma EmptyResultAsymmetry<T>(page: nat, limit: nat, base: string, endPoint: string)
    requires page >= 1 && limit >= 1
    ensures GetPaginatedData<T>([], page, limit, base, endPoint).pagination
         == Meta(page, 0, false, page > 1, 0, None,
                 if page > 1 then Some(PageUrl(base, endPoint, page - 1, limit)) else None)
    ensures GetAggregatedPaginatedData<T>([], page, limit, base, Some(endPoint))
         == PageResult([], Empty)
  {
    var p := GetPaginatedData<T>([], page, limit, base, endPoint).pagination;
    assert p.totalPages == 0;
  }

  /** A missing endpoint changes nothing but the links, whose path segment
      is then empty. */
  lemma AggregatedMissingEndPoint<T>(docs: seq<T>, page: nat, limit: nat, base: string, e: string)
    requires page >= 1 && limit >= 1
    ensures var absent := GetAggregatedPaginatedData(docs, page, limit, base, None);
            var given := GetAggregatedPaginatedData(docs, page, limit, base, Some(e));
            && absent.result == given.result
            && absent == GetAggregatedPaginatedData(docs, page, limit, base, Some(""))
            && (absent.pagination.Meta? ==>
                  && given.pagination.Meta?
                  && absent.pagination == given.pagination.(nextPage := absent.pagination.nextPage,
                                                           prevPage := absent.pagination.prevPage)
                  && (absent.pagination.nextPage.Some? ==>
                        absent.pagination.nextPage.value == PageUrl(base, "", page + 1, limit))
                  && (absent.pagination.prevPage.Some? ==>
                        absent.pagination.prevPage.value == PageUrl(base, "", page - 1, limit)))
  {
  }

  /** Following `nextPage` requests the following page with the same limit,
      which holds documents and links back to the page it came from. */
  lemma FollowNextPage<T>(docs: seq<T>, page: nat, limit: nat, base: string, endPoint: string)
    requires page >= 1 && limit >= 1
    requires '?' !in base && '?' !in endPoint
    requires page < CeilDiv(|docs|, limit)
    ensures GetPaginatedData(docs, page, limit, base, endPoint).pagination.hasNextPage
    ensures var link := GetPaginatedData(docs, page, limit, base, endPoint).pagination.nextPage;
            link.Some? && ParsePageQuery(QueryPart(link.value)) == Some((page + 1, limit))
    ensures var r := GetPaginatedData(docs, page + 1, limit, base, endPoint);
            && r.result != []
            && r.pagination.hasPrevPage
            && r.pagination.prevPage == Some(PageUrl(base, endPoint, page, limit))
  {
    var count := CeilDiv(|docs|, limit);
    var r := GetPaginatedData(docs, page, limit, base, endPoint);
    CeilDivUnique(|docs|, limit, r.pagination.totalPages);
    var r' := GetPaginatedData(docs, page + 1, limit, base, endPoint);
    CeilDivUnique(|docs|, limit, r'.pagination.totalPages);
    assert page + 1 <= count;
    PageUrlRoundTrip(base, endPoint, page + 1, limit);
  }

  /** Following `prevPage` requests the preceding page with the same limit,
      which holds documents and links forward to the page it came from. */
  lemma FollowPrevPage<T>(docs: seq<T>, page: nat, limit: nat, base: string, endPoint: string)
    requires page >= 1 && limit >= 1
    requires '?' !in base && '?' !in endPoint
    requires 1 < page <= CeilDiv(|docs|, limit)
    ensures GetPaginatedData(docs, page, limit, base, endPoint).pagination.hasPrevPage
    ensures var link := GetPaginatedData(docs, page, limit, base, endPoint).pagination.prevPage;
            link.Some? && ParsePageQuery(QueryPart(link.value)) == Some((page - 1, limit))
    ensures var r := GetPaginatedData(docs, page - 1, limit, base, endPoint);
            && r.result != []
            && r.pagination.hasNextPage
            && r.pagination.nextPage == Some(PageUrl(base, endPoint, page, limit))
  {
    var count := CeilDiv(|docs|, limit);
    var r := GetPaginatedData(docs, page, limit, base, endPoint);
    CeilDivUnique(|docs|, limit, r.pagination.totalPages);
    var r' := GetPaginatedData(docs, page - 1, limit, base, endPoint);
    CeilDivUnique(|docs|, limit, r'.pagination.totalPages);
    assert page - 1 < count;
    PageUrlRoundTrip(base, endPoint, page - 1, limit);
  }

  /* ----------------------------------------------------------- scenarios */

  /** The decimal texts the scenarios below use. */
  lemma SmallNumberTexts()
    ensures NatToString(1) == "1" && NatToString(2) == "2" && NatToString(10) == "10"
  {
    assert NatToString(1) == [DigitChar(1)];
    assert NatToString(10) == NatToString(1) + [DigitChar(0)];
  }

  /** Twenty documents, ten to a page: the first page links to the second. */
  lemma FirstOfTwoPages(base: string)
    ensures var r := GetPaginatedData(seq(20, i => i), 1, 10, base, "items");
            && r.result == seq(10, i => i)
            && r.pagination == Meta(1, 2, true, false, 20,
                                    Some(base + "/api/items?page=2&limit=10"), None)
  {
    var docs := seq(20, i => i);
    assert GetPaginatedData(docs, 1, 10, base, "items")
        == PageResult(PageSlice(docs, 1, 10), Metadata(20, 1, 10, base, "items"));
    assert PageSlice(docs, 1, 10) == docs[0..10] == seq(10, i => i);
    assert CeilDiv(20, 10) == 2;
    SmallNumberTexts();
    assert PageUrl(base, "items", 2, 10) == base + "/api/items?page=2&limit=10";
  }

  /** The same twenty documents: the second page links back to the first. */
  lemma LastOfTwoPages(base: string)
    ensures var r := GetPaginatedData(seq(20, i => i), 2, 10, base, "items");
            && r.result == seq(10, i => i + 10)
            && r.pagination == Meta(2, 2, false, true, 20,
                                    None, Some(base + "/api/items?page=1&limit=10"))
  {
    var docs := seq(20, i => i);
    assert GetPaginatedData(docs, 2, 10, base, "items")
        == PageResult(PageSlice(docs, 2, 10), Metadata(20, 2, 10, base, "items"));
    assert PageSlice(docs, 2, 10) == docs[10..20] == seq(10, i => i + 10);
    assert CeilDiv(20, 10) == 2;
    SmallNumberTexts();
    assert PageUrl(base, "items", 1, 10) == base + "/api/items?page=1&limit=10";
  }

  /** Five documents, ten to a page, page three: no documents, no error. */
  lemma PagePastTheEnd(base: string)
    ensures var r := GetPaginatedData(seq(5, i => i), 3, 10, base, "items");
            && r.result == []
            && r.pagination.totalPages == 1
            && !r.pagination.hasNextPage
  {
  }
}

=== FILE: wrappers.dfy ===
/** An optional value: the model's reading of a JavaScript `undefined`
    or `null`, and of a parameter the caller left out. */
module Wrappers {

  datatype Option<+T> = None | Some(value: T) {

    /** What the option holds, falling back to `default` when it is `None`. */
    function GetOr(default: T): T {
      if Some? then value else default
    }
  }
}
